=== FILE: README.md ===
# Task tracker: API controllers and client list state

A model of a small task-tracking application: a REST API over one SQLite table `tasks`, and a
single-page client that keeps the task list locally.

The server side is the table created by `createTable` and the four controllers behind
`POST /tasks`, `GET /tasks`, `PUT /tasks/:id` and `DELETE /tasks/:id`. The table is a map from id
to `Row`, with the AUTOINCREMENT counter (`nextId`) and an abstract clock that stands in for
`CURRENT_TIMESTAMP`. Each controller is a pure function from a store, a request and a storage
fault to a new store and a reply (status and JSON body). The listing is a method: the order of
rows with equal `created_at` is left open.

The client side is the state of `App.jsx`: the task list, the input fields, the edit state and
the filter. Each handler is a function from that state and the network outcome to a new state
and the request it sent. The filter views and the statistics are functions of the list.

Modules:

- `Options`: `Option` and `Result`.
- `Js`: `trim` and truthiness.
- `Schema`: the table and the meaning of the SQL statements.
- `Http`: the JSON task, the request body, the reply, and the normalisation shared by create
  and update.
- `CreateTask`, `GetTasks`, `UpdateTask`, `DeleteTask`: one module per controller.
- `Client`: the client state and its handlers.
- `Scenarios`: properties that span several requests, or the client and the server together.

Where the code departs from what a REST client would expect, the model follows the code:

- `DELETE /tasks/:id` always answers 200. It has no 404. Its statement is not awaited, so no
  storage error reaches its 500 branch.
- `GET /tasks` lists newest first only up to the clock's resolution. Two tasks created at the
  same clock value may come in either order (`Scenarios.SameTimeEitherOrder`).
- `PUT /tasks/:id` detects "not found" only from the read-back. A storage error whose message
  is exactly "Tarefa não encontrada" is also answered with 404.
- A failed read-back after a successful INSERT or UPDATE answers 500. The write has already
  taken effect.

## Model

| member | source | states |
|---|---|---|
| Js.Trim | backend/src/http/routes/controllers/create-task.js:11 | `trim` drops exactly the leading and trailing ECMAScript white space; the result is empty iff the input is all white space |
| Js.TrimIdempotent | backend/src/http/routes/controllers/create-task.js:23 | trimming a trimmed title changes nothing, so stored titles are fixpoints of `trim` |
| Js.TrimOfTrimmed | backend/src/http/routes/controllers/update-task.js:24 | a string with no white space at either end is left unchanged by `trim` |
| Schema.EmptyStore | backend/src/database/migrations/create-table.js:9-16 | a just-created table has no rows, satisfies the schema invariant, and its AUTOINCREMENT counter will issue 1 first |
| Schema.CreateTable | backend/src/database/migrations/create-table.js:5-18 | with no table, init gives an empty table that satisfies the schema invariant, at the current time, whose AUTOINCREMENT counter will issue 1 first; with a table, init leaves it as it was |
| Schema.CreateTableIdempotent | backend/src/database/migrations/create-table.js:9 | `CREATE TABLE IF NOT EXISTS` run a second time changes nothing |
| Schema.CompletedColumn | backend/src/database/migrations/create-table.js:13 | an INSERT that omits `completed` stores 0 |
| Schema.Insert | backend/src/database/migrations/create-table.js:10-15 | a new row gets a key that no row has and that is above every key ever issued, with `created_at == updated_at ==` now; all other rows stay as they were; past 2^63-1 the insert fails with SQLITE_FULL |
| Schema.SelectById | backend/src/http/routes/controllers/update-task.js:29 | the read-back finds a row iff the key is in the table, and returns that row |
| Schema.UpdateById | backend/src/http/routes/controllers/update-task.js:23 | an unknown key changes nothing; a known key gets the new fields and `updated_at` set to now, keeps its `created_at`, and no other row changes |
| Schema.DeleteById | backend/src/http/routes/controllers/delete-task.js:11 | the row under the key is gone, every other row is unchanged, and the counter is not rewound |
| Schema.DeleteByIdIdempotent | backend/src/http/routes/controllers/delete-task.js:11 | deleting twice equals deleting once |
| Schema.Tick | backend/src/database/migrations/create-table.js:14-15 | the clock only moves forward, and moving it keeps the schema invariant |
| Http.ToTask | backend/src/http/routes/controllers/get-tasks.js:15-18 | the JSON task is the stored row with its id, and `completed` is true iff the stored integer is non-zero |
| Http.TitleMissing | backend/src/http/routes/controllers/create-task.js:11 | the title check fails exactly when the title is missing, `null`, or only white space |
| Http.StoredTitle | backend/src/http/routes/controllers/create-task.js:23 | the stored title is the trimmed input; it is non-empty and already trimmed |
| Http.StoredDescription | backend/src/http/routes/controllers/create-task.js:23 | a missing or empty description is stored as `""`; any other description is stored verbatim |
| Http.StoredFlag | backend/src/http/routes/controllers/create-task.js:23 | `completed` is stored as 0 or 1, and 1 exactly when the sent value is truthy |
| Http.NormalRow | backend/src/http/routes/controllers/update-task.js:23-24 | the row both write routes store: trimmed non-blank title, defaulted description, 0/1 flag that reads back as the truthiness sent |
| CreateTask.Failure | backend/src/http/routes/controllers/create-task.js:47-51 | every error of the route becomes a 500 whose message is the fixed prefix followed by the cause |
| CreateTask.Handle | backend/src/http/routes/controllers/create-task.js:5-53 | a blank or missing title gives 400 and no change; a failed INSERT gives 500 with the cause and no change; otherwise exactly one row is added under a fresh key and every other row is untouched; 201 with the stored row as JSON iff nothing failed; a failed read-back gives 500 |
| CreateTask.CreatedTask | backend/src/http/routes/controllers/create-task.js:8-46 | the 201 task has the trimmed title, a defaulted description, and `completed` false unless a truthy value was sent; its timestamps are equal and its id is above every earlier key |
| UpdateTask.Failure | backend/src/http/routes/controllers/update-task.js:45-53 | an error gives 404 iff its message is exactly "Tarefa não encontrada"; any other error gives 500 with the prefixed cause |
| UpdateTask.Handle | backend/src/http/routes/controllers/update-task.js:5-54 | title validation comes before any lookup; an unknown id changes nothing and gives 404; a known id gets the normalised body and `updated_at` = now, and no other row changes; 200 iff the id existed and nothing failed |
| UpdateTask.UpdateKeepsNormalised | backend/src/http/routes/controllers/update-task.js:22-24 | the UPDATE keeps the store normalised, and a known id then holds exactly the normalised row with its old `created_at` and the current time as `updated_at` |
| UpdateTask.UpdatedTask | backend/src/http/routes/controllers/update-task.js:23-44 | the 200 task keeps its id and `created_at`; `updated_at` moves to now and never goes back; an omitted `completed` comes back false |
| DeleteTask.Handle | backend/src/http/routes/controllers/delete-task.js:5-20 | the reply is always 200 "Tarefa deletada com sucesso!"; the row is removed when the statement succeeds; every other row is unchanged; an unknown id or a failed statement leaves the table as it was |
| DeleteTask.DeleteIdempotent | backend/src/http/routes/controllers/delete-task.js:11 | two deletes of the same id leave the same table as one |
| GetTasks.Handle | backend/src/http/routes/controllers/get-tasks.js:5-31 | a failed query gives 500 with the cause; otherwise 200 with every row exactly once, as JSON, newest first |
| GetTasks.InsertFreshId | backend/src/http/routes/controllers/get-tasks.js:10 | placing a task whose id is not yet listed keeps the ids of a partial listing pairwise different |
| GetTasks.InsertIdSet | backend/src/http/routes/controllers/get-tasks.js:10 | placing a task adds exactly its id to the ids listed |
| GetTasks.InsertKeepsOrder | backend/src/http/routes/controllers/get-tasks.js:10 | placing a task before the first strictly older one keeps a list newest first |
| GetTasks.InsertStep | backend/src/http/routes/controllers/get-tasks.js:10 | adding one more row at its newest-first position keeps a partial listing ordered and duplicate-free |
| GetTasks.ListingLength | backend/src/http/routes/controllers/get-tasks.js:10 | a listing has exactly as many entries as the table has rows |
| GetTasks.EmptyListing | backend/src/http/routes/controllers/get-tasks.js:10 | an empty table lists as `[]` |
| GetTasks.NewerListedFirst | backend/src/http/routes/controllers/get-tasks.js:10 | a task created strictly later is listed before an earlier one |
| Client.Filter | frontend/src/App.jsx:162-166 | `filter` keeps exactly the accepted elements and never lengthens the list |
| Client.FilterAppend | frontend/src/App.jsx:154 | filtering distributes over concatenation, so the kept tasks stay in their original order |
| Client.Done | frontend/src/App.jsx:170 | the completed view holds exactly the completed tasks |
| Client.Pending | frontend/src/App.jsx:154 | the pending list holds exactly the tasks that are not completed |
| Client.PendingDoneSplit | frontend/src/App.jsx:169-171 | pending and completed counts add up to the total |
| Client.WithoutId | frontend/src/App.jsx:61 | removal by id keeps exactly the tasks with another id |
| Client.WithoutIdAppend | frontend/src/App.jsx:61 | removal by id keeps the remaining tasks in order |
| Client.ReplaceById | frontend/src/App.jsx:82 | replace-by-id keeps the length and every id; it replaces the entries with the returned id and leaves the others alone |
| Client.ReplaceDoneCount | frontend/src/App.jsx:120 | with unique ids, replacing one task changes the completed count by the difference of the two flags |
| Client.ToggleMovesCompletedCount | frontend/src/App.jsx:69-87 | a delivered toggle moves the completed counter by exactly one, in the direction of the new flag |
| Client.FindById | frontend/src/App.jsx:104 | `find` returns the first task with the id, or nothing when no task has it |
| Client.Ids | frontend/src/App.jsx:139 | the ids of a list, one per task, in list order (applied to the completed tasks at line 139) |
| Client.Initial | frontend/src/App.jsx:5-11 | the component starts with no tasks, empty new-task and edit inputs, nothing in edit, and filter 'all' |
| Client.LoadAsWritten | frontend/src/App.jsx:16-21 | as written, any JSON body becomes `tasks`; a non-list body makes the next render fail |
| Client.LoadAsWrittenCrashesOnListFailure | frontend/src/App.jsx:19 | the server's 500 reply to the listing crashes the as-written load |
| Client.Load | frontend/src/App.jsx:16-21 | corrected load: only an ok reply carrying a list replaces `tasks`; anything else leaves the state alone |
| Client.AddTask | frontend/src/App.jsx:24-50 | a blank title sends nothing and changes nothing; a delivered create appends the server's task after the existing ones and clears both inputs; a failure changes nothing |
| Client.AddTaskCounts | frontend/src/App.jsx:24-50 | a delivered create raises the total by one and the completed count by one exactly when the returned task is completed |
| Client.DeleteTask | frontend/src/App.jsx:53-66 | a delivered delete drops exactly the tasks with that id; a failed one changes nothing |
| Client.ToggleBody | frontend/src/App.jsx:76 | the toggle request copies title and description and sends the negated `completed` |
| Client.ToggleComplete | frontend/src/App.jsx:69-87 | the request goes to the task's id; on success only the returned id's entries are replaced |
| Client.StartEdit | frontend/src/App.jsx:90-94 | editing starts on the task's id with its title and description, and the list is untouched |
| Client.CancelEdit | frontend/src/App.jsx:131-135 | cancelling clears the edit state and leaves the list alone |
| Client.SaveEdit | frontend/src/App.jsx:97-128 | a blank edit title, or an edited task missing from the list, sends nothing; otherwise the PUT to the edited id is always sent, carrying the typed title and description with the task's current `completed`; on success the entry is replaced and editing ends |
| Client.ClearCompleted | frontend/src/App.jsx:138-159 | with no completed task, or no confirmation, nothing is sent; with some completed task and a confirmation, one DELETE per completed id is always sent; when all are delivered the list is exactly the pending tasks |
| Client.ClearCompletedEmptiesDone | frontend/src/App.jsx:138-172 | after a confirmed, delivered clear no task is completed: the total is the old pending count, the percentage is 0, and clearing again sends nothing |
| Client.NoneDoneIsEmpty | frontend/src/App.jsx:139 | a list with no completed task has an empty completed view |
| Client.Visible | frontend/src/App.jsx:162-166 | 'pending' shows the tasks not completed, 'completed' shows the completed ones, and any other filter shows all |
| Client.ViewsPartition | frontend/src/App.jsx:162-166 | every task is in exactly one of the 'pending' and 'completed' views, and their sizes add up to the total |
| Client.RoundDiv | frontend/src/App.jsx:172 | the result is the nearest integer to the quotient, halves rounded up |
| Client.Percentage | frontend/src/App.jsx:172 | 0 for an empty list; otherwise the rounded percentage, in 0..100; 100 when all tasks are completed and 0 when none are |
| Client.Statistics | frontend/src/App.jsx:169-172 | the total is the list length, the completed count is the size of the completed view, and pending is the number of pending tasks, which equals total minus completed |
| Scenarios.CreatedThenListed | backend/src/http/routes/controllers/create-task.js:21-37 | a created task shows up, as returned, in every later listing |
| Scenarios.DeletedThenNotListed | backend/src/http/routes/controllers/delete-task.js:11 | after a successful delete, no listing mentions the id |
| Scenarios.NoIdReuse | backend/src/database/migrations/create-table.js:10 | a task created after a delete gets an id above the deleted one |
| Scenarios.LaterCreatedListedFirst | backend/src/http/routes/controllers/get-tasks.js:10 | when the clock moves between creating A and creating B, every listing puts B before A |
| Scenarios.SameTimeEitherOrder | backend/src/http/routes/controllers/get-tasks.js:10 | two rows with the same `created_at` may be listed in either order |
| Scenarios.ToggleRoundTrip | frontend/src/App.jsx:76 | the client's toggle, applied by the server to the task as stored, flips `completed`, keeps title and description, and bumps `updated_at` |
| Scenarios.SaveEditKeepsCompleted | frontend/src/App.jsx:110-114 | saving an edit keeps the task's `completed` flag on the server |
| Scenarios.InitialLoad | frontend/src/App.jsx:16-21 | the mounted list is a listing of the table, or the previous state when the query fails |
| Scenarios.CreateFirstTask | backend/src/http/routes/controllers/create-task.js:11-46 | a POST with any non-blank title on a fresh table answers 201 with task 1, the title trimmed, description `""`, not completed, and stores exactly that row |
| Scenarios.CompleteOnlyTask | backend/src/http/routes/controllers/update-task.js:12-44 | on a table holding only task 1, a PUT of its title with `completed: true` answers 200 with the task completed and changes nothing else |
| Scenarios.DeleteOnlyTask | backend/src/http/routes/controllers/delete-task.js:11-13 | `DELETE /tasks/1` on a table holding only task 1 answers 200 and the table then lists as `[]` |

## Left out

- `backend/src/http/routes/app-routes.js`, `backend/src/database/db.js`, `backend/src/http/app.js`, `backend/src/http/server.js`: route binding, the connection, CORS and listening. They are configuration with no logic of their own.
- The asynchronous plumbing: callbacks, promises, concurrent requests. Each controller is one sequential step. The only effect of the non-atomic write-then-read kept in the model is that a failed read-back follows a write that already happened (`ReadFault`).
- The create read-back finding no row. It cannot happen without a concurrent writer. The code would throw outside the promise there.
- Storage errors are inputs (`Fault`, `failure`) with their message text. Which SQLite conditions produce them is not modelled, except AUTOINCREMENT exhaustion.
- Timestamp format and resolution. The clock is an abstract `nat` that never decreases and may repeat.
- Path parameters. The `:id` string is taken as the integer SQLite compares it with. A non-numeric id is an id that names no row.
- Non-string titles and descriptions. `trim` on a non-string title throws outside the `try`. A non-string truthy description would be converted by SQLite. The body's title and description are strings or missing.
- JSON numbers are exact reals. `NaN` cannot occur in JSON.
- The unreachable 500 branch of `deleteTask` and its message "Ocorreu um erro ao deletar a tarefa: ".
- On the client: `alert`, `console`, rendering, styling, and the date sort and formatting at lines 349, 394 and 465-472. The `confirm` answer and the network outcome are inputs. A request is recorded by its body and target id, without URL or headers.
- CreateTask.Handle, UpdateTask.Handle: a request whose body is absent or JSON `null` throws at the destructuring of `request.body`, which sits outside the `try` (create-task.js:8, update-task.js:9); the framework then answers its own 500, neither the route's 400 nor its prefixed 500. `TaskBody` is always an object, so this path is not modelled.
- Schema.Insert, CreateTask.Handle, GetTasks.Handle: ids are exact integers up to the AUTOINCREMENT limit 2^63-1. The SQLite driver hands `this.lastID` and INTEGER columns to JavaScript as doubles, exact only up to 2^53; above that the read-back uses a rounded key and listed ids can collide, breaking the client's `===` matches. Ids above 2^53 are not covered.
- Client.AddTask, Client.DeleteTask, Client.ToggleComplete, Client.SaveEdit, Client.ClearCompleted: each handler's `setTasks` writes a list built from the `tasks` it was called with (App.jsx:43, 61, 82, 120, 154), not through a functional updater. When two handlers overlap, the later write discards the earlier one's local change (the server keeps both), and a create clears inputs typed while its POST was in flight (App.jsx:44-45). Each handler is modelled as one step from the state it was called in; overlapping handlers are not modelled.
- Client.ClearCompleted: one `delivered` flag stands for the whole `Promise.all`. When some deletes reach the server and another rejects, the server-side effect of the deletes that went through is not modelled. The local list is correctly left unchanged.
- Client.Percentage: rounds the exact rational `100 * completed / total`, halves up. `Math.round` of the floating-point product can differ by one at half-way points, because of binary rounding error.

## Findings

| source | as written | input that shows it | evidently intended | confidence | as-written member | corrected member |
|---|---|---|---|---|---|---|
| frontend/src/App.jsx:16-21 | the mount-time fetch stores the JSON of `GET /tasks` as `tasks` without checking `response.ok` | the listing query fails, so the server answers 500 `{message: "Ocorreu um erro ao buscar as tarefas: ..."}`; `tasks` becomes an object, and `tasks.filter` at line 162 throws on the next render | a reply that is not ok is logged and the list is kept, as the `.catch` does for a rejected fetch | medium, not executed | Client.LoadAsWritten | Client.Load |

=== FILE: client.dfy ===
/** The single-page client: its local task list and edit fields, what each handler sends, how
    each handler changes the local state once the request's outcome is known, and the views and
    statistics derived from the list. The network is an input: a request was delivered with the
    server's JSON, or it failed (a rejected `fetch` or a reply that is not `ok`). */
module Client {
  import opened Options
  import opened Js
  import opened Http

  /** `Array.prototype.filter` on a task list: the tasks `keep` accepts, in their order. */
  function Filter(xs: seq<Task>, keep: Task -> bool): (r: seq<Task>)
    ensures |r| <= |xs|
    ensures forall x :: x in r <==> x in xs && keep(x)
  {
    if xs == [] then []
    else
      assert xs == [xs[0]] + xs[1..];
      (if keep(xs[0]) then [xs[0]] else []) + Filter(xs[1..], keep)
  }

  /** Filtering a concatenation filters each part: the kept elements keep their order. */
  lemma {:induction false} FilterAppend(a: seq<Task>, b: seq<Task>, keep: Task -> bool)
    ensures Filter(a + b, keep) == Filter(a, keep) + Filter(b, keep)
  {
    if a == [] {
      assert a + b == b;
    } else {
      assert (a + b)[0] == a[0];
      assert (a + b)[1..] == a[1..] + b;
      FilterAppend(a[1..], b, keep);
    }
  }

  /** Filtering by a predicate and by its negation splits the list in two. */
  lemma {:induction false} FilterSplit(xs: seq<Task>, keep: Task -> bool, drop: Task -> bool)
    requires forall x :: drop(x) == !keep(x)
    ensures |Filter(xs, keep)| + |Filter(xs, drop)| == |xs|
  {
    if xs != [] {
      FilterSplit(xs[1..], keep, drop);
    }
  }

  predicate IsDone(t: Task) {
    t.completed
  }

  predicate IsPending(t: Task) {
    !t.completed
  }

  /** `tasks.filter(task => task.completed)`. */
  function Done(ts: seq<Task>): (r: seq<Task>)
    ensures forall t :: t in r <==> t in ts && t.completed
  {
    Filter(ts, IsDone)
  }

  /** `tasks.filter(task => !task.completed)`. */
  function Pending(ts: seq<Task>): (r: seq<Task>)
    ensures forall t :: t in r <==> t in ts && !t.completed
  {
    Filter(ts, IsPending)
  }

  /** Every task is pending or done, never both. */
  lemma PendingDoneSplit(ts: seq<Task>)
    ensures |Pending(ts)| + |Done(ts)| == |ts|
  {
    FilterSplit(ts, IsPending, IsDone);
  }

  /** `tasks.filter(task => task.id !== id)`. */
  function WithoutId(ts: seq<Task>, id: int): (r: seq<Task>)
    ensures forall t :: t in r <==> t in ts && t.id != id
    ensures |r| <= |ts|
  {
    Filter(ts, (t: Task) => t.id != id)
  }

  /** Removing an id from a concatenation removes it from each part, keeping the order. */
  lemma WithoutIdAppend(a: seq<Task>, b: seq<Task>, id: int)
    ensures WithoutId(a + b, id) == WithoutId(a, id) + WithoutId(b, id)
  {
    FilterAppend(a, b, (t: Task) => t.id != id);
  }

  /** `tasks.map(t => (t.id === u.id ? u : t))`. */
  function ReplaceById(ts: seq<Task>, u: Task): (r: seq<Task>)
    ensures |r| == |ts|
    ensures forall i | 0 <= i < |ts| :: r[i].id == ts[i].id
    ensures forall i | 0 <= i < |ts| && ts[i].id != u.id :: r[i] == ts[i]
    ensures forall i | 0 <= i < |ts| && ts[i].id == u.id :: r[i] == u
  {
    if ts == [] then []
    else [if ts[0].id == u.id then u else ts[0]] + ReplaceById(ts[1..], u)
  }

  /** Ids that occur at most once. */
  ghost predicate UniqueIds(ts: seq<Task>) {
    forall i, j | 0 <= i < j < |ts| :: ts[i].id != ts[j].id
  }

  /** Replacing the one task with `u`'s id moves the completed count by the difference between
      the two `completed` flags. */
  lemma {:induction false} ReplaceDoneCount(ts: seq<Task>, u: Task, i: int)
    requires UniqueIds(ts)
    requires 0 <= i < |ts| && ts[i].id == u.id
    ensures |Done(ReplaceById(ts, u))| + (if ts[i].completed then 1 else 0)
         == |Done(ts)| + (if u.completed then 1 else 0)
  {
    var r := ReplaceById(ts, u);
    assert r == [r[0]] + r[1..];
    assert ts == [ts[0]] + ts[1..];
    FilterAppend([r[0]], r[1..], IsDone);
    FilterAppend([ts[0]], ts[1..], IsDone);
    if i == 0 {
      assert r[1..] == ts[1..] by {
        assert forall j | 0 <= j < |ts| - 1 :: ts[1..][j].id != u.id;
      }
    } else {
      assert ts[0].id != u.id;
      ReplaceDoneCount(ts[1..], u, i - 1);
    }
  }

  /** The first task with the given id: `tasks.find(t => t.id === id)`. */
  function FindById(ts: seq<Task>, id: int): (r: Option<Task>)
    ensures r.None? <==> forall t | t in ts :: t.id != id
    ensures r.Some? ==> r.value.id == id
    ensures r.Some? ==>
      exists i | 0 <= i < |ts| :: ts[i] == r.value && (forall j | 0 <= j < i :: ts[j].id != id)
  {
    if ts == [] then None
    else if ts[0].id == id then Some(ts[0])
    else
      var r := FindById(ts[1..], id);
      assert ts == [ts[0]] + ts[1..];
      if r.Some? then
        var i :| 0 <= i < |ts| - 1 && ts[1..][i] == r.value && (forall j | 0 <= j < i :: ts[1..][j].id != id);
        assert ts[i + 1] == r.value;
        r
      else r
  }

  /** The ids of a list, in order: `.map(task => task.id)`. */
  function Ids(ts: seq<Task>): (r: seq<int>)
    ensures |r| == |ts| && forall i | 0 <= i < |ts| :: r[i] == ts[i].id
  {
    seq(|ts|, i requires 0 <= i < |ts| => ts[i].id)
  }

  /** The component's state. `editing` is `editingTask` (`null` is `None`). */
  datatype View = View(
    tasks: seq<Task>,
    newTitle: string,
    newDescription: string,
    editing: Option<int>,
    editTitle: string,
    editDescription: string,
    filter: string)

  /** The request a handler sends, if any. */
  datatype Request =
    | NoRequest
    | Post(body: TaskBody)
    | Put(id: int, body: TaskBody)
    | Remove(id: int)
    | RemoveAll(ids: seq<int>)

  /** The state after a handler, and what it sent. */
  datatype Step = Step(view: View, sent: Request)

  /** Outcome of a request that answers with a task. */
  datatype Reply = Delivered(task: Task) | Failed

  /** The state the component starts in. */
  function Initial(): (v: View)
    ensures v.tasks == [] && v.editing.None? && v.filter == "all"
    ensures v.newTitle == [] && v.newDescription == [] && v.editTitle == [] && v.editDescription == []
  {
    View([], [], [], None, [], [], "all")
  }

  /** What the next render throws when `tasks` is not an array. */
  const RenderCrash: string := "tasks.filter is not a function"

  /** The mount-time `useEffect` as written: the JSON of `GET /tasks` becomes `tasks` whether or
      not the reply was `ok`. `reply` is `None` when `fetch` or `.json()` rejects, which is only
      logged. A body that is not a list (the `{message}` of a 500) makes the next render throw
      at `tasks.filter`, shown as `Err`. */
  function LoadAsWritten(v: View, reply: Option<Response>): (r: Result<View>)
    ensures reply.None? ==> r == Ok(v)
    ensures reply.Some? && reply.value.body.Many? ==> r == Ok(v.(tasks := reply.value.body.tasks))
    ensures reply.Some? && !reply.value.body.Many? ==> r == Err(RenderCrash)
  {
    match reply
    case None => Ok(v)
    case Some(response) =>
      if response.body.Many? then Ok(v.(tasks := response.body.tasks)) else Err(RenderCrash)
  }

  /** The server's 500 reply to `GET /tasks` crashes the as-written load. */
  lemma LoadAsWrittenCrashesOnListFailure(v: View, cause: string)
    ensures LoadAsWritten(v, Some(Response(500, Message(ListFailed + cause)))) == Err(RenderCrash)
  {
  }

  /** The load as evidently intended: only an `ok` reply carrying a list replaces `tasks`; any
      other outcome is logged and leaves the state as it was. */
  function Load(v: View, reply: Option<Response>): (r: View)
    ensures reply.Some? && 200 <= reply.value.status < 300 && reply.value.body.Many? ==>
      r == v.(tasks := reply.value.body.tasks)
    ensures reply.None? || !(200 <= reply.value.status < 300) || !reply.value.body.Many? ==> r == v
  {
    match reply
    case Some(response) =>
      if 200 <= response.status < 300 && response.body.Many? then v.(tasks := response.body.tasks) else v
    case None => v
  }

  /** `handleAddTask`: a blank title sends nothing; a created task is appended and both inputs
      are cleared; a failure changes nothing. */
  function AddTask(v: View, reply: Reply): (r: Step)
    ensures IsBlank(v.newTitle) ==> r == Step(v, NoRequest)
    ensures !IsBlank(v.newTitle) ==> r.sent == Post(TaskBody(Some(v.newTitle), Some(v.newDescription), Absent))
    ensures !IsBlank(v.newTitle) && reply.Delivered? ==>
      && |r.view.tasks| == |v.tasks| + 1
      && r.view.tasks[..|v.tasks|] == v.tasks
      && r.view.tasks[|v.tasks|] == reply.task
      && r.view.newTitle == [] && r.view.newDescription == []
      && r.view.editing == v.editing && r.view.editTitle == v.editTitle
      && r.view.editDescription == v.editDescription && r.view.filter == v.filter
    ensures reply.Failed? ==> r.view == v
  {
    if Trim(v.newTitle) == [] then
      Step(v, NoRequest)
    else
      var sent := Post(TaskBody(Some(v.newTitle), Some(v.newDescription), Absent));
      match reply
      case Failed => Step(v, sent)
      case Delivered(created) => Step(v.(tasks := v.tasks + [created], newTitle := [], newDescription := []), sent)
  }

  /** A delivered create adds one to the total, and one to the completed count exactly when
      the server returned the task completed. */
  lemma AddTaskCounts(v: View, created: Task)
    requires !IsBlank(v.newTitle)
    ensures var after := AddTask(v, Delivered(created)).view.tasks;
      && Statistics(after).total == Statistics(v.tasks).total + 1
      && Statistics(after).completed == Statistics(v.tasks).completed + (if created.completed then 1 else 0)
  {
    var after := AddTask(v, Delivered(created)).view.tasks;
    assert after == v.tasks + [created];
    FilterAppend(v.tasks, [created], IsDone);
    assert Filter([created], IsDone) == (if created.completed then [created] else []) + Filter([], IsDone);
  }

  /** `handleDeleteTask`: on success exactly the entries with that id leave the list. */
  function DeleteTask(v: View, id: int, ok: bool): (r: Step)
    ensures r.sent == Remove(id)
    ensures ok ==> r.view == v.(tasks := WithoutId(v.tasks, id))
    ensures !ok ==> r.view == v
  {
    Step(if ok then v.(tasks := WithoutId(v.tasks, id)) else v, Remove(id))
  }

  /** The body `{...task, completed: !task.completed}` that toggling sends. */
  function ToggleBody(task: Task): (b: TaskBody)
    ensures b.title == Some(task.title) && b.description == Some(task.description)
    ensures Truthy(b.completed) == !task.completed
  {
    TaskBody(Some(task.title), Some(task.description), Bool(!task.completed))
  }

  /** `handleToggleComplete`: sends the task with `completed` negated; on success the entry with
      the returned task's id is replaced, and nothing else changes. */
  function ToggleComplete(v: View, task: Task, reply: Reply): (r: Step)
    ensures r.sent == Put(task.id, ToggleBody(task))
    ensures reply.Delivered? ==> r.view == v.(tasks := ReplaceById(v.tasks, reply.task))
    ensures reply.Failed? ==> r.view == v
  {
    var sent := Put(task.id, ToggleBody(task));
    match reply
    case Failed => Step(v, sent)
    case Delivered(updated) => Step(v.(tasks := ReplaceById(v.tasks, updated)), sent)
  }

  /** In a list with unique ids, a delivered toggle of one of its tasks moves the completed
      counter by exactly one, up when the task became completed, down otherwise. */
  lemma ToggleMovesCompletedCount(v: View, task: Task, updated: Task, i: int)
    requires UniqueIds(v.tasks) && 0 <= i < |v.tasks| && v.tasks[i] == task
    requires updated.id == task.id && updated.completed == !task.completed
    ensures var after := ToggleComplete(v, task, Delivered(updated)).view.tasks;
      Statistics(after).completed == Statistics(v.tasks).completed + (if updated.completed then 1 else -1)
  {
    ReplaceDoneCount(v.tasks, updated, i);
  }

  /** `handleStartEdit`. */
  function StartEdit(v: View, task: Task): (r: View)
    ensures r.editing == Some(task.id) && r.editTitle == task.title && r.editDescription == task.description
    ensures r.tasks == v.tasks && r.newTitle == v.newTitle && r.newDescription == v.newDescription
    ensures r.filter == v.filter
  {
    v.(editing := Some(task.id), editTitle := task.title, editDescription := task.description)
  }

  /** `handleCancelEdit`. */
  function CancelEdit(v: View): (r: View)
    ensures r.editing.None? && r.editTitle == [] && r.editDescription == []
    ensures r.tasks == v.tasks && r.newTitle == v.newTitle && r.newDescription == v.newDescription
    ensures r.filter == v.filter
  {
    v.(editing := None, editTitle := [], editDescription := [])
  }

  /** `handleSaveEdit`: a blank title sends nothing; so does an edit whose task is not in the
      list (reading `task.completed` of `undefined` throws before `fetch` is called). Otherwise
      the edited title and description go out with the task's current `completed`. */
  function SaveEdit(v: View, reply: Reply): (r: Step)
    ensures IsBlank(v.editTitle) ==> r == Step(v, NoRequest)
    ensures v.editing.None? ==> r == Step(v, NoRequest)
    ensures v.editing.Some? && FindById(v.tasks, v.editing.value).None? ==> r == Step(v, NoRequest)
    ensures r.sent.Put? ==>
      && !IsBlank(v.editTitle)
      && v.editing == Some(r.sent.id)
      && r.sent.body == TaskBody(Some(v.editTitle), Some(v.editDescription),
                                 Bool(FindById(v.tasks, r.sent.id).value.completed))
    ensures r.sent.NoRequest? || r.sent.Put?
    // a non-blank title for a task still in the list always goes out
    ensures !IsBlank(v.editTitle) && v.editing.Some? && FindById(v.tasks, v.editing.value).Some? ==>
      r.sent == Put(v.editing.value, TaskBody(Some(v.editTitle), Some(v.editDescription),
                                              Bool(FindById(v.tasks, v.editing.value).value.completed)))
    ensures r.sent.Put? && reply.Delivered? ==>
      r.view == v.(tasks := ReplaceById(v.tasks, reply.task), editing := None, editTitle := [], editDescription := [])
    ensures reply.Failed? ==> r.view == v
  {
    if Trim(v.editTitle) == [] then
      Step(v, NoRequest)
    else
      match v.editing
      case None => Step(v, NoRequest)
      case Some(id) =>
        match FindById(v.tasks, id)
        case None => Step(v, NoRequest)
        case Some(task) =>
          var sent := Put(id, TaskBody(Some(v.editTitle), Some(v.editDescription), Bool(task.completed)));
          match reply
          case Failed => Step(v, sent)
          case Delivered(updated) =>
            Step(v.(tasks := ReplaceById(v.tasks, updated), editing := None, editTitle := [], editDescription := []), sent)
  }

  /** `handleClearCompleted`: nothing is sent when no task is completed or the user does not
      confirm; otherwise one DELETE per completed task, and once all are delivered the list
      keeps exactly its pending tasks, in order. Replies are not checked for `ok`. */
  function ClearCompleted(v: View, confirmed: bool, delivered: bool): (r: Step)
    ensures (forall t | t in v.tasks :: !t.completed) ==> r == Step(v, NoRequest)
    ensures !confirmed ==> r == Step(v, NoRequest)
    ensures r.sent.RemoveAll? ==> r.sent.ids == Ids(Done(v.tasks)) && r.sent.ids != []
    ensures r.sent.NoRequest? || r.sent.RemoveAll?
    // a confirmed clear with some task completed always sends the DELETEs
    ensures confirmed && (exists t | t in v.tasks :: t.completed) ==> r.sent == RemoveAll(Ids(Done(v.tasks)))
    ensures r.sent.RemoveAll? && delivered ==> r.view == v.(tasks := Pending(v.tasks))
    ensures !delivered ==> r.view == v
  {
    var ids := Ids(Done(v.tasks));
    assert |ids| > 0 ==> Done(v.tasks)[0] in Done(v.tasks) && Done(v.tasks)[0] in v.tasks;
    if |ids| == 0 then
      Step(v, NoRequest)
    else if !confirmed then
      Step(v, NoRequest)
    else
      Step(if delivered then v.(tasks := Pending(v.tasks)) else v, RemoveAll(ids))
  }

  /** A confirmed clear that was delivered leaves no completed task: the counters then show
      the old pending count as the total, none completed, 0%, and clearing again sends nothing. */
  lemma {:induction false} ClearCompletedEmptiesDone(v: View)
    ensures var after := ClearCompleted(v, true, true).view;
      && Statistics(after.tasks).completed == 0
      && Statistics(after.tasks).total == Statistics(v.tasks).pending
      && Statistics(after.tasks).percentage == 0
      && ClearCompleted(after, true, true) == Step(after, NoRequest)
  {
    var after := ClearCompleted(v, true, true).view;
    NoneDoneIsEmpty(after.tasks);
    PendingDoneSplit(v.tasks);
    if forall t | t in v.tasks :: !t.completed {
      NoneDoneIsEmpty(v.tasks);
    }
  }

  /** A list holding no completed task has an empty completed view. */
  lemma {:induction false} NoneDoneIsEmpty(ts: seq<Task>)
    requires forall t | t in ts :: !t.completed
    ensures Done(ts) == []
  {
    if ts != [] {
      assert ts[0] in ts;
      assert forall t | t in ts[1..] :: t in ts;
      NoneDoneIsEmpty(ts[1..]);
    }
  }

  /** `filteredTasks`. */
  function Visible(ts: seq<Task>, filter: string): (r: seq<Task>)
    ensures filter == "pending" ==> forall t :: t in r <==> t in ts && !t.completed
    ensures filter == "completed" ==> forall t :: t in r <==> t in ts && t.completed
    ensures filter != "pending" && filter != "completed" ==> r == ts
  {
    if filter == "pending" then Pending(ts)
    else if filter == "completed" then Done(ts)
    else ts
  }

  /** The 'pending' and 'completed' views partition the list. */
  lemma ViewsPartition(ts: seq<Task>)
    ensures |Visible(ts, "pending")| + |Visible(ts, "completed")| == |ts|
    ensures forall t | t in ts :: (t in Visible(ts, "pending")) != (t in Visible(ts, "completed"))
  {
    PendingDoneSplit(ts);
  }

  /** `Math.round(num / den)` for non-negative `num` and positive `den`, computed exactly:
      the nearest integer, halves rounded up. */
  function RoundDiv(num: nat, den: nat): (q: nat)
    requires den > 0
    ensures 2 * q * den <= 2 * num + den < 2 * q * den + 2 * den
  {
    (2 * num + den) / (2 * den)
  }

  datatype Stats = Stats(total: nat, completed: nat, pending: int, percentage: int)

  /** `totalTasks`, `completedTasks`, `pendingTasks` and `completionPercentage`. */
  function Statistics(ts: seq<Task>): (r: Stats)
    ensures r.total == |ts|
    ensures r.completed == |Done(ts)|
    ensures r.pending == |Pending(ts)| && r.pending == r.total - r.completed
    ensures 0 <= r.percentage <= 100
    ensures r.total == 0 ==> r.percentage == 0
    ensures r.total > 0 ==> 2 * r.percentage * r.total <= 200 * r.completed + r.total < 2 * r.percentage * r.total + 2 * r.total
    ensures r.total > 0 && r.completed == r.total ==> r.percentage == 100
    ensures r.completed == 0 ==> r.percentage == 0
  {
    PendingDoneSplit(ts);
    var done := |Done(ts)|;
    Stats(|ts|, done, |ts| - done, Percentage(done, |ts|))
  }

  /** `totalTasks > 0 ? Math.round((completedTasks / totalTasks) * 100) : 0`. */
  function Percentage(done: nat, total: nat): (pct: int)
    requires done <= total
    ensures 0 <= pct <= 100
    ensures total == 0 ==> pct == 0
    ensures total > 0 ==> 2 * pct * total <= 200 * done + total < 2 * pct * total + 2 * total
    ensures total > 0 && done == total ==> pct == 100
    ensures done == 0 ==> pct == 0
  {
    if total == 0 then 0
    else
      var q := RoundDiv(100 * done, total);
      PercentBounds(done, total, q);
      q
  }

  /** The sign of a product with a positive factor is the sign of the other factor. */
  lemma ProductSign(x: int, t: int)
    requires t > 0
    ensures x > 0 ==> x * t > 0
    ensures x <= 0 ==> x * t <= 0
  {
  }

  /** The rounded share of `done` in `total` lies in 0..100, and hits the ends exactly. */
  lemma PercentBounds(done: nat, total: nat, pct: nat)
    requires 0 < total && done <= total
    requires 2 * pct * total <= 200 * done + total < 2 * pct * total + 2 * total
    ensures pct <= 100
    ensures done == total ==> pct == 100
    ensures done == 0 ==> pct == 0
  {
    ProductSign(2 * pct - 201, total);
    assert (2 * pct - 201) * total == 2 * pct * total - 201 * total;
    ProductSign(2 * pct - 199, total);
    assert (2 * pct - 199) * total == 2 * pct * total - 199 * total;
    ProductSign(2 * pct - 1, total);
    assert (2 * pct - 1) * total == 2 * pct * total - total;
  }
}

=== FILE: create_task.dfy ===
/** `POST /tasks`: validate the title, insert the normalised row, read it back by `lastID`. */
module CreateTask {
  import opened Options
  import opened Js
  import opened Schema
  import opened Http

  /** The `catch` of `createTask`: every error is a 500 whose message is the cause after the
      route's fixed prefix. */
  function Failure(cause: string): (r: Response)
    ensures r.status == 500 && r.body.Message?
    ensures |r.body.text| == |CreateFailed| + |cause|
    ensures r.body.text[..|CreateFailed|] == CreateFailed && r.body.text[|CreateFailed|..] == cause
  {
    Response(500, Message(CreateFailed + cause))
  }

  /** `createTask`. A `WriteFault` is an INSERT the driver rejects (before a key is taken); a
      `ReadFault` is the read-back failing after the INSERT has already stored the row. */
  function Handle(s: Store, body: TaskBody, fault: Fault): (out: Outcome)
    requires Normalised(s)
    ensures Normalised(out.store)
    ensures out.store.clock == s.clock && out.store.nextId >= s.nextId
    ensures out.response.status == 201 || out.response.status == 400 || out.response.status == 500
    // validation comes first and touches nothing
    ensures TitleMissing(body.title) ==> out == Outcome(s, Response(400, Message(TitleRequired)))
    // an INSERT that fails leaves the table as it was
    ensures !TitleMissing(body.title) && fault.WriteFault? ==> out == Outcome(s, Failure(fault.cause))
    ensures !TitleMissing(body.title) && !fault.WriteFault? && s.nextId > MaxRowId ==>
      out == Outcome(s, Failure(FullMessage))
    // an INSERT that succeeds adds exactly one row, under a key above every key there was
    ensures !TitleMissing(body.title) && !fault.WriteFault? && s.nextId <= MaxRowId ==>
      && AddsRow(s, out.store, s.nextId, NormalRow(body, s.clock, s.clock))
      && out.store.nextId == s.nextId + 1
    ensures !TitleMissing(body.title) && fault.ReadFault? && s.nextId <= MaxRowId ==>
      out.response == Failure(fault.cause)
    // 201 exactly when nothing failed, carrying the stored row as JSON
    ensures out.response.status == 201 <==> !TitleMissing(body.title) && fault.NoFault? && s.nextId <= MaxRowId
    ensures out.response.status == 201 ==>
      out.response == Response(201, One(ToTask(s.nextId, out.store.rows[s.nextId])))
  {
    if TitleMissing(body.title) then
      Outcome(s, Response(400, Message(TitleRequired)))
    else
      var written :=
        if fault.WriteFault? then Err(fault.cause)
        else Insert(s, StoredTitle(body.title), StoredDescription(body.description), Some(StoredFlag(body.completed)));
      match written
      case Err(cause) => Outcome(s, Failure(cause))
      case Ok(inserted) =>
        if fault.ReadFault? then
          Outcome(inserted.store, Failure(fault.cause))
        else
          var row := SelectById(inserted.store, inserted.lastId);
          assert row.Some?;
          Outcome(inserted.store, Response(201, One(ToTask(inserted.lastId, row.value))))
  }

  /** The task a 201 carries is the request normalised: trimmed title, `""` for a missing
      description, `completed` false unless a truthy value was sent, equal timestamps, and an
      id no earlier row has. */
  lemma CreatedTask(s: Store, body: TaskBody, fault: Fault)
    requires Normalised(s)
    requires Handle(s, body, fault).response.status == 201
    ensures var t := Handle(s, body, fault).response.body.task;
      && t.title == Trim(body.title.value)
      && t.description == StoredDescription(body.description)
      && t.completed == Truthy(body.completed)
      && (body.completed.Absent? ==> !t.completed)
      && t.createdAt == t.updatedAt == s.clock
      && t.id !in s.rows
      && (forall k | k in s.rows :: k < t.id)
  {
  }
}

=== FILE: delete_task.dfy ===
/** `DELETE /tasks/:id`: the statement is started but not awaited, so the reply never depends
    on whether it succeeded or whether the row existed. */
module DeleteTask {
  import opened Options
  import opened Schema
  import opened Http

  /** `deleteTask`. `failure` is the error the un-awaited DELETE may report; it only reaches
      the driver's callback-less call, never the reply, and leaves the table as it was. */
  function Handle(s: Store, id: int, failure: Option<string>): (out: Outcome)
    ensures out.response == Response(200, Message(Deleted))
    ensures out.store.nextId == s.nextId && out.store.clock == s.clock
    ensures failure.Some? ==> out.store == s
    ensures failure.None? ==> out.store.rows.Keys == s.rows.Keys - {id}
    ensures forall k | k in out.store.rows :: k in s.rows && out.store.rows[k] == s.rows[k]
    ensures id !in s.rows ==> out.store == s
    ensures Normalised(s) ==> Normalised(out.store)
  {
    if failure.Some? then Outcome(s, Response(200, Message(Deleted)))
    else Outcome(DeleteById(s, id), Response(200, Message(Deleted)))
  }

  /** Deleting twice leaves the same table as deleting once. */
  lemma DeleteIdempotent(s: Store, id: int)
    ensures Handle(Handle(s, id, None).store, id, None) == Handle(s, id, None)
  {
    DeleteByIdIdempotent(s, id);
  }
}

=== FILE: get_tasks.dfy ===
/** `GET /tasks`: `SELECT * FROM tasks ORDER BY created_at DESC`, each row turned into JSON. */
module GetTasks {
  import opened Options
  import opened Schema
  import opened Http

  /** The ids a list of tasks mentions. */
  ghost function IdSet(ts: seq<Task>): set<int> {
    set t | t in ts :: t.id
  }

  /** Ordered by `created_at`, most recent first. */
  ghost predicate NewestFirst(ts: seq<Task>) {
    forall i, j | 0 <= i < j < |ts| :: ts[i].createdAt >= ts[j].createdAt
  }

  /** `ts` lists, as JSON and newest first, exactly the rows of `rows` under `keys`, each once. */
  ghost predicate ListsKeys(rows: map<int, Row>, keys: set<int>, ts: seq<Task>) {
    && keys <= rows.Keys
    && (forall i | 0 <= i < |ts| :: ts[i].id in rows && ts[i] == ToTask(ts[i].id, rows[ts[i].id]))
    && (forall i, j | 0 <= i < j < |ts| :: ts[i].id != ts[j].id)
    && IdSet(ts) == keys
    && NewestFirst(ts)
  }

  /** `ts` is an answer the query may give for the table `rows`: every row exactly once, as
      JSON, newest first. Rows with equal `created_at` may come in any order. */
  ghost predicate IsListing(rows: map<int, Row>, ts: seq<Task>) {
    ListsKeys(rows, rows.Keys, ts)
  }

  /** Where `t` goes in a newest-first list: before the first strictly older task. */
  function InsertPoint(ts: seq<Task>, t: Task): (p: nat)
    ensures p <= |ts|
    ensures forall i | 0 <= i < p :: ts[i].createdAt >= t.createdAt
    ensures p < |ts| ==> ts[p].createdAt < t.createdAt
  {
    if |ts| == 0 || ts[0].createdAt < t.createdAt then 0 else 1 + InsertPoint(ts[1..], t)
  }

  /** `ts` with `t` placed after every task at least as new as `t`. */
  function InsertNewest(ts: seq<Task>, t: Task): (r: seq<Task>)
    ensures |r| == |ts| + 1
    ensures forall x :: x in r <==> x in ts || x == t
  {
    var p := InsertPoint(ts, t);
    assert ts == ts[..p] + ts[p..];
    ts[..p] + [t] + ts[p..]
  }

  /** Where each task of `ts` ends up once `t` is inserted. */
  lemma InsertNewestAt(ts: seq<Task>, t: Task)
    ensures var p, r := InsertPoint(ts, t), InsertNewest(ts, t);
      && r[p] == t
      && (forall i | 0 <= i < p :: r[i] == ts[i])
      && (forall i | p < i < |r| :: r[i] == ts[i - 1])
  {
  }

  /** Inserting a task with a fresh id keeps the ids pairwise different. */
  lemma InsertFreshId(ts: seq<Task>, t: Task)
    requires forall i, j | 0 <= i < j < |ts| :: ts[i].id != ts[j].id
    requires t.id !in IdSet(ts)
    ensures var r := InsertNewest(ts, t); forall i, j | 0 <= i < j < |r| :: r[i].id != r[j].id
  {
    InsertNewestAt(ts, t);
    assert forall i | 0 <= i < |ts| :: ts[i].id in IdSet(ts);
  }

  /** Inserting a task adds exactly its id to the ids mentioned. */
  lemma InsertIdSet(ts: seq<Task>, t: Task)
    ensures IdSet(InsertNewest(ts, t)) == IdSet(ts) + {t.id}
  {
  }

  /** Inserting at `InsertPoint` keeps a list newest first. */
  lemma InsertKeepsOrder(ts: seq<Task>, t: Task)
    requires NewestFirst(ts)
    ensures NewestFirst(InsertNewest(ts, t))
  {
    InsertNewestAt(ts, t);
  }

  /** Adding one more row to a partial listing keeps it a listing. */
  lemma InsertStep(rows: map<int, Row>, keys: set<int>, ts: seq<Task>, k: int)
    requires ListsKeys(rows, keys, ts)
    requires k in rows && k !in keys
    ensures ListsKeys(rows, keys + {k}, InsertNewest(ts, ToTask(k, rows[k])))
  {
    var t := ToTask(k, rows[k]);
    InsertNewestAt(ts, t);
    InsertFreshId(ts, t);
    InsertIdSet(ts, t);
    InsertKeepsOrder(ts, t);
  }

  /** `getTasks`. `failure` is the error the query may report. Which of several rows with equal
      `created_at` comes first is left open: the loop takes the rows in an arbitrary order. */
  method Handle(s: Store, failure: Option<string>) returns (r: Response)
    ensures failure.Some? ==> r == Response(500, Message(ListFailed + failure.value))
    ensures failure.None? ==> r.status == 200 && r.body.Many? && IsListing(s.rows, r.body.tasks)
  {
    if failure.Some? {
      return Response(500, Message(ListFailed + failure.value));
    }
    var remaining := s.rows.Keys;
    var ts: seq<Task> := [];
    while remaining != {}
      invariant remaining <= s.rows.Keys
      invariant ListsKeys(s.rows, s.rows.Keys - remaining, ts)
      decreases remaining
    {
      NonEmptyHasMember(remaining);
      var k :| k in remaining;
      InsertStep(s.rows, s.rows.Keys - remaining, ts, k);
      ts := InsertNewest(ts, ToTask(k, s.rows[k]));
      assert s.rows.Keys - remaining + {k} == s.rows.Keys - (remaining - {k});
      remaining := remaining - {k};
    }
    assert s.rows.Keys - remaining == s.rows.Keys;
    return Response(200, Many(ts));
  }

  /** A non-empty set has an element. */
  lemma NonEmptyHasMember(keys: set<int>)
    requires keys != {}
    ensures exists k :: k in keys
  {
    assert (forall k :: k !in keys) ==> keys == {};
  }

  /** A table with no rows lists as `[]`. */
  lemma EmptyListing(ts: seq<Task>)
    requires IsListing(map[], ts)
    ensures ts == []
  {
    ListingLength(map[], ts);
  }

  /** A listing is exactly as long as the table: no row is left out or repeated. */
  lemma {:induction false} ListingLength(rows: map<int, Row>, ts: seq<Task>)
    requires IsListing(rows, ts)
    ensures |ts| == |rows|
  {
    DistinctIdsCount(ts);
    assert rows.Keys == IdSet(ts);
  }

  /** The ids of a non-empty list: its head's, and those of its tail. */
  lemma IdSetCons(ts: seq<Task>)
    requires ts != []
    ensures IdSet(ts) == {ts[0].id} + IdSet(ts[1..])
  {
    assert forall x :: x in ts <==> x == ts[0] || x in ts[1..] by {
      assert ts == [ts[0]] + ts[1..];
    }
  }

  /** A list whose ids are pairwise different mentions as many ids as it has tasks. */
  lemma {:induction false} DistinctIdsCount(ts: seq<Task>)
    requires forall i, j | 0 <= i < j < |ts| :: ts[i].id != ts[j].id
    ensures |IdSet(ts)| == |ts|
  {
    if ts != [] {
      var rest := ts[1..];
      assert forall i, j | 0 <= i < j < |rest| :: rest[i].id != rest[j].id by {
        assert forall i | 0 <= i < |rest| :: rest[i] == ts[i + 1];
      }
      DistinctIdsCount(rest);
      IdSetCons(ts);
      assert ts[0].id !in IdSet(rest) by {
        forall x | x in rest
          ensures x.id != ts[0].id
        {
          var i :| 0 <= i < |rest| && rest[i] == x;
          assert ts[i + 1] == x;
        }
      }
    }
  }

  /** A task created strictly later is listed before an earlier one. */
  lemma NewerListedFirst(rows: map<int, Row>, ts: seq<Task>, i: int, j: int)
    requires IsListing(rows, ts)
    requires 0 <= i < |ts| && 0 <= j < |ts|
    requires ts[i].createdAt > ts[j].createdAt
    ensures i < j
  {
  }
}

=== FILE: http.dfy ===
/** What the controllers share: the JSON task the API returns, the request body the create and
    update routes read, the reply they send, and the normalisation rules of both write routes. */
module Http {
  import opened Options
  import opened Js
  import opened Schema

  /** A task as JSON: a row with its key, `completed` surfaced as a boolean. */
  datatype Task = Task(id: int, title: string, description: string, completed: bool, createdAt: nat, updatedAt: nat)

  /** The `{title, description, completed}` body of POST and PUT. A `None` title or description
      is a field that is missing or `null`. */
  datatype TaskBody = TaskBody(title: Option<string>, description: Option<string>, completed: Value)

  datatype Body = Message(text: string) | One(task: Task) | Many(tasks: seq<Task>)

  datatype Response = Response(status: int, body: Body)

  /** The store after a request, and the reply sent for it. */
  datatype Outcome = Outcome(store: Store, response: Response)

  /** Which storage call, if any, reports an error, and its `error.message`: the write
      statement, or the read-back that follows a successful write. */
  datatype Fault = NoFault | WriteFault(cause: string) | ReadFault(cause: string)

  const TitleRequired: string := "O t\U{ED}tulo da tarefa \U{E9} obrigat\U{F3}rio"
  const NotFound: string := "Tarefa n\U{E3}o encontrada"
  const Deleted: string := "Tarefa deletada com sucesso!"
  const CreateFailed: string := "Ocorreu um erro ao criar a tarefa: "
  const ListFailed: string := "Ocorreu um erro ao buscar as tarefas: "
  const UpdateFailed: string := "Ocorreu um erro ao atualizar a tarefa: "

  /** `{...row, completed: Boolean(row.completed)}` for the row stored under `id`. */
  function ToTask(id: int, row: Row): (t: Task)
    ensures t.id == id && (t.completed <==> Boolean(row.completed))
    ensures t.title == row.title && t.description == row.description
    ensures t.createdAt == row.createdAt && t.updatedAt == row.updatedAt
  {
    Task(id, row.title, row.description, row.completed != 0, row.createdAt, row.updatedAt)
  }

  /** `!title?.trim()`: the title is missing, `null`, or only white space. */
  function TitleMissing(title: Option<string>): (r: bool)
    ensures r <==> title.None? || IsBlank(title.value)
  {
    title.None? || Trim(title.value) == []
  }

  /** The `title.trim()` that is stored once validation passed. */
  function StoredTitle(title: Option<string>): (r: string)
    requires !TitleMissing(title)
    ensures r != [] && !IsBlank(r) && Trim(r) == r
    ensures r == Trim(title.value)
  {
    TrimIdempotent(title.value);
    Trim(title.value)
  }

  /** `description || ""`: a missing, `null` or empty description is stored as `""`. */
  function StoredDescription(description: Option<string>): (r: string)
    ensures description.Some? && description.value != [] ==> r == description.value
    ensures description.None? || description.value == [] ==> r == []
  {
    if description.Some? then description.value else []
  }

  /** `completed ? 1 : 0`. */
  function StoredFlag(completed: Value): (r: int)
    ensures r == 0 || r == 1
    ensures Boolean(r) <==> Truthy(completed)
  {
    if Truthy(completed) then 1 else 0
  }

  /** The invariant of every store the controllers produce: the schema's own, plus the
      normalisation both write routes apply (trimmed, non-blank title; 0/1 flag). */
  ghost predicate Normalised(s: Store) {
    && s.Valid()
    && (forall k | k in s.rows :: s.rows[k].title != [] && Trim(s.rows[k].title) == s.rows[k].title)
    && (forall k | k in s.rows :: s.rows[k].completed == 0 || s.rows[k].completed == 1)
  }

  /** The row the write routes store for `body`, with the given timestamps. */
  function NormalRow(body: TaskBody, createdAt: nat, updatedAt: nat): (row: Row)
    requires !TitleMissing(body.title)
    ensures row.title == Trim(body.title.value) && !IsBlank(row.title)
    ensures row.description == StoredDescription(body.description)
    ensures Boolean(row.completed) <==> Truthy(body.completed)
    ensures row.createdAt == createdAt && row.updatedAt == updatedAt
  {
    Row(StoredTitle(body.title), StoredDescription(body.description), StoredFlag(body.completed), createdAt, updatedAt)
  }
}

=== FILE: js.dfy ===
/** The two pieces of JavaScript semantics the handlers rely on:
    `String.prototype.trim` and truthiness of a JSON value. */
module Js {

  /** WhiteSpace and LineTerminator code points of ECMAScript: the characters `trim` removes. */
  predicate IsSpace(c: char) {
    || c in {'\t', '\n', '\U{B}', '\U{C}', '\r', ' ', '\U{A0}', '\U{1680}', '\U{2028}', '\U{2029}',
             '\U{202F}', '\U{205F}', '\U{3000}', '\U{FEFF}'}
    || ('\U{2000}' <= c <= '\U{200A}')
  }

  /** A string that `trim` reduces to the empty string. */
  predicate IsBlank(s: string) {
    forall i | 0 <= i < |s| :: IsSpace(s[i])
  }

  /** Number of white-space characters at the start of `s`. */
  function LeadingSpaces(s: string): (n: nat)
    ensures n <= |s|
    ensures forall i | 0 <= i < n :: IsSpace(s[i])
    ensures n < |s| ==> !IsSpace(s[n])
  {
    if |s| == 0 || !IsSpace(s[0]) then 0 else 1 + LeadingSpaces(s[1..])
  }

  /** Number of white-space characters at the end of `s`. */
  function TrailingSpaces(s: string): (n: nat)
    ensures n <= |s|
    ensures forall i | |s| - n <= i < |s| :: IsSpace(s[i])
    ensures n < |s| ==> !IsSpace(s[|s| - n - 1])
  {
    if |s| == 0 || !IsSpace(s[|s| - 1]) then 0 else 1 + TrailingSpaces(s[..|s| - 1])
  }

  /** `s.trim()`: the longest infix of `s` that neither starts nor ends with white space,
      everything cut away being white space. */
  function Trim(s: string): (r: string)
    ensures LeadingSpaces(s) + |r| <= |s|
    ensures r == s[LeadingSpaces(s)..LeadingSpaces(s) + |r|]
    ensures forall i | 0 <= i < LeadingSpaces(s) :: IsSpace(s[i])
    ensures forall i | LeadingSpaces(s) + |r| <= i < |s| :: IsSpace(s[i])
    ensures r != [] ==> !IsSpace(r[0]) && !IsSpace(r[|r| - 1])
    ensures r == [] <==> IsBlank(s)
  {
    var a := LeadingSpaces(s);
    if a == |s| then
      []
    else
      var b := TrailingSpaces(s);
      assert b < |s| - a by {
        assert !IsSpace(s[a]);
      }
      s[a..|s| - b]
  }

  /** A string with no white space at either end is left alone by `trim`. */
  lemma {:induction false} TrimOfTrimmed(s: string)
    requires s != [] ==> !IsSpace(s[0]) && !IsSpace(s[|s| - 1])
    ensures Trim(s) == s
  {
    if s != [] {
      assert LeadingSpaces(s) == 0;
      assert TrailingSpaces(s) == 0;
    }
  }

  /** `trim` is idempotent. */
  lemma TrimIdempotent(s: string)
    ensures Trim(Trim(s)) == Trim(s)
  {
    TrimOfTrimmed(Trim(s));
  }

  /** The JSON values a request body can carry; `Absent` is a field that is not there
      (JavaScript `undefined`). Numbers are taken as exact decimals. */
  datatype Value =
    | Absent
    | Null
    | Bool(b: bool)
    | Number(x: real)
    | Str(s: string)
    | Composite   // an array or an object

  /** JavaScript truthiness: `undefined`, `null`, `false`, `0` and `""` are falsy, all else truthy. */
  predicate Truthy(v: Value) {
    match v
    case Absent => false
    case Null => false
    case Bool(b) => b
    case Number(x) => x != 0.0
    case Str(s) => s != []
    case Composite => true
  }

  /** `Boolean(n)` on the integer SQLite returns for a BOOLEAN column. */
  predicate Boolean(n: int) {
    n != 0
  }
}

=== FILE: options.dfy ===
/** Failure-carrying wrappers shared by the whole model. */
module Options {

  /** A value that may be missing: an absent JSON field, a lookup that found nothing. */
  datatype Option<+T> = None | Some(value: T)

  /** The outcome of one storage call: a value, or the driver's error message. */
  datatype Result<+T> = Ok(value: T) | Err(message: string)
}

=== FILE: scenarios.dfy ===
/** Properties that span several requests, or the client and the server together. */
module Scenarios {
  import opened Options
  import opened Js
  import opened Schema
  import opened Http
  import CreateTask
  import UpdateTask
  import DeleteTask
  import GetTasks
  import Client

  /** A task that was just created appears, exactly as the 201 returned it, in every listing
      of the table that follows. */
  lemma CreatedThenListed(s: Store, body: TaskBody, fault: Fault, ts: seq<Task>)
    requires Normalised(s)
    requires CreateTask.Handle(s, body, fault).response.status == 201
    requires GetTasks.IsListing(CreateTask.Handle(s, body, fault).store.rows, ts)
    ensures CreateTask.Handle(s, body, fault).response.body.task in ts
  {
    var out := CreateTask.Handle(s, body, fault);
    var id := out.response.body.task.id;
    assert id in GetTasks.IdSet(ts);
    var t :| t in ts && t.id == id;
    var i :| 0 <= i < |ts| && ts[i] == t;
  }

  /** After a delete that went through, no listing mentions the id. */
  lemma DeletedThenNotListed(s: Store, id: int, ts: seq<Task>)
    requires GetTasks.IsListing(DeleteTask.Handle(s, id, None).store.rows, ts)
    ensures forall t | t in ts :: t.id != id
  {
    forall t | t in ts
      ensures t.id != id
    {
      assert t.id in GetTasks.IdSet(ts);
    }
  }

  /** Ids are never reused: a task created after a delete gets a key above the deleted one. */
  lemma NoIdReuse(s: Store, id: int, failure: Option<string>, body: TaskBody, fault: Fault)
    requires Normalised(s) && id in s.rows
    requires CreateTask.Handle(DeleteTask.Handle(s, id, failure).store, body, fault).response.status == 201
    ensures CreateTask.Handle(DeleteTask.Handle(s, id, failure).store, body, fault).response.body.task.id > id
  {
  }

  /** Two tasks created with the clock moving on in between list newest first. */
  lemma LaterCreatedListedFirst(s: Store, a: TaskBody, b: TaskBody, elapsed: nat, ts: seq<Task>)
    requires Normalised(s) && elapsed > 0
    requires CreateTask.Handle(s, a, NoFault).response.status == 201
    requires
      var s2 := Tick(CreateTask.Handle(s, a, NoFault).store, elapsed);
      CreateTask.Handle(s2, b, NoFault).response.status == 201
    requires
      var s2 := Tick(CreateTask.Handle(s, a, NoFault).store, elapsed);
      GetTasks.IsListing(CreateTask.Handle(s2, b, NoFault).store.rows, ts)
    ensures
      var first := CreateTask.Handle(s, a, NoFault).response.body.task;
      var s2 := Tick(CreateTask.Handle(s, a, NoFault).store, elapsed);
      var second := CreateTask.Handle(s2, b, NoFault).response.body.task;
      forall i, j | 0 <= i < |ts| && 0 <= j < |ts| && ts[i].id == second.id && ts[j].id == first.id :: i < j
  {
    var out1 := CreateTask.Handle(s, a, NoFault);
    var s2 := Tick(out1.store, elapsed);
    var out2 := CreateTask.Handle(s2, b, NoFault);
    forall i, j | 0 <= i < |ts| && 0 <= j < |ts| && ts[i].id == out2.response.body.task.id
                  && ts[j].id == out1.response.body.task.id
      ensures i < j
    {
      assert ts[i].createdAt == s2.clock;
      assert ts[j].createdAt == s.clock;
      GetTasks.NewerListedFirst(out2.store.rows, ts, i, j);
    }
  }

  /** Two rows created within the same clock value may be listed in either order. */
  lemma SameTimeEitherOrder(a: Row, b: Row)
    requires a.createdAt == b.createdAt
    ensures GetTasks.IsListing(map[1 := a, 2 := b], [ToTask(1, a), ToTask(2, b)])
    ensures GetTasks.IsListing(map[1 := a, 2 := b], [ToTask(2, b), ToTask(1, a)])
  {
    assert GetTasks.IdSet([ToTask(1, a), ToTask(2, b)]) == {1, 2};
    assert GetTasks.IdSet([ToTask(2, b), ToTask(1, a)]) == {1, 2};
  }

  /** Toggling a task the client holds as stored flips `completed` on the server, keeps title
      and description, and bumps `updated_at`. */
  lemma ToggleRoundTrip(s: Store, task: Task)
    requires Normalised(s)
    requires task.id in s.rows && task == ToTask(task.id, s.rows[task.id])
    ensures UpdateTask.Handle(s, task.id, Client.ToggleBody(task), NoFault).response
         == Response(200, One(task.(completed := !task.completed, updatedAt := s.clock)))
  {
    assert Trim(task.title) == task.title;
    assert StoredDescription(Some(task.description)) == task.description;
  }

  /** Saving an edit leaves `completed` as the client held it, whatever was typed. */
  lemma SaveEditKeepsCompleted(s: Store, v: Client.View, reply: Client.Reply)
    requires Normalised(s)
    requires Client.SaveEdit(v, reply).sent.Put?
    ensures
      var sent := Client.SaveEdit(v, reply).sent;
      var out := UpdateTask.Handle(s, sent.id, sent.body, NoFault);
      out.response.status == 200 ==>
        out.response.body.task.completed == Client.FindById(v.tasks, sent.id).value.completed
  {
  }

  /** The load as intended, fed by the server: the list after mounting is a listing of the
      table, or, when the query fails, the state the component had. */
  method InitialLoad(s: Store, failure: Option<string>, v: Client.View) returns (r: Client.View)
    ensures failure.None? ==> GetTasks.IsListing(s.rows, r.tasks) && r == v.(tasks := r.tasks)
    ensures failure.Some? ==> r == v
  {
    var response := GetTasks.Handle(s, failure);
    r := Client.Load(v, Some(response));
  }

  /** `POST /tasks {"title": raw}` on a freshly created table answers 201 with task 1, title
      trimmed, description `""`, not completed, and stores exactly that row. */
  lemma CreateFirstTask(raw: string, now: nat)
    requires !IsBlank(raw)
    ensures CreateTask.Handle(CreateTable(None, now).value, TaskBody(Some(raw), None, Absent), NoFault)
         == Outcome(Store(map[1 := Row(Trim(raw), "", 0, now, now)], 2, now),
                    Response(201, One(Task(1, Trim(raw), "", false, now, now))))
  {
    var s := CreateTable(None, now).value;
    assert Normalised(s);
    var out := CreateTask.Handle(s, TaskBody(Some(raw), None, Absent), NoFault);
    assert out.store.rows == map[1 := Row(Trim(raw), "", 0, now, now)];
  }

  /** On a table holding just task 1 with a trimmed title, a PUT of that title with
      `completed: true` answers 200 with the task completed; nothing else changes (the clock
      has not moved, so neither has `updated_at`). */
  lemma CompleteOnlyTask(title: string, now: nat)
    requires title != [] && Trim(title) == title
    ensures UpdateTask.Handle(Store(map[1 := Row(title, "", 0, now, now)], 2, now), 1,
                              TaskBody(Some(title), None, Bool(true)), NoFault)
         == Outcome(Store(map[1 := Row(title, "", 1, now, now)], 2, now),
                    Response(200, One(Task(1, title, "", true, now, now))))
  {
    var s := Store(map[1 := Row(title, "", 0, now, now)], 2, now);
    assert Normalised(s);
    var out := UpdateTask.Handle(s, 1, TaskBody(Some(title), None, Bool(true)), NoFault);
    assert out.store.rows == map[1 := Row(title, "", 1, now, now)];
  }

  /** `DELETE /tasks/1` on a table holding just task 1 answers 200, and the table
      then lists as `[]`. */
  lemma DeleteOnlyTask(row: Row, ts: seq<Task>)
    requires GetTasks.IsListing(DeleteTask.Handle(Store(map[1 := row], 2, row.updatedAt), 1, None).store.rows, ts)
    ensures DeleteTask.Handle(Store(map[1 := row], 2, row.updatedAt), 1, None).response
         == Response(200, Message(Deleted))
    ensures ts == []
  {
    var out := DeleteTask.Handle(Store(map[1 := row], 2, row.updatedAt), 1, None);
    assert out.store.rows == map[];
    GetTasks.EmptyListing(ts);
  }
}

=== FILE: schema.dfy ===
/** The `tasks` table created by `createTable`, and the meaning of the four SQL statements the
    controllers run against it.

    A row's `id` is its key in `rows`. `nextId` is one more than the largest id the table has
    ever issued (SQLite keeps that number in `sqlite_sequence` for an AUTOINCREMENT key), and
    `clock` is the value `CURRENT_TIMESTAMP` would have now: an abstract, never-decreasing time. */
module Schema {
  import opened Options

  /** Largest rowid SQLite can issue (a signed 64-bit integer). */
  const MaxRowId: int := 0x7FFF_FFFF_FFFF_FFFF

  /** The driver's message when an AUTOINCREMENT key has reached `MaxRowId`. */
  const FullMessage: string := "SQLITE_FULL: database or disk is full"

  /** One row of `tasks`, without its key. `completed` is what SQLite keeps in the
      BOOLEAN column: an integer. */
  datatype Row = Row(title: string, description: string, completed: int, createdAt: nat, updatedAt: nat)

  datatype Store = Store(rows: map<int, Row>, nextId: int, clock: nat) {

    /** What the schema guarantees of every state: keys were issued by the AUTOINCREMENT
        counter, and timestamps were taken from the clock, `created_at` first. */
    ghost predicate Valid() {
      && 1 <= nextId <= MaxRowId + 1
      && (forall k | k in rows :: 1 <= k < nextId)
      && (forall k | k in rows :: rows[k].createdAt <= rows[k].updatedAt <= clock)
    }
  }

  /** A store whose table was just created: no rows, and an AUTOINCREMENT counter that has
      never issued a key, so the first INSERT gets key 1. */
  function EmptyStore(now: nat): (s: Store)
    ensures s.Valid() && s.rows == map[] && s.clock == now
    ensures s.nextId == 1
  {
    Store(map[], 1, now)
  }

  /** `CREATE TABLE IF NOT EXISTS tasks (...)` on a database that may or may not hold the
      table already (`None` when it does not). */
  function CreateTable(table: Option<Store>, now: nat): (r: Option<Store>)
    ensures r.Some?
    ensures table.Some? ==> r == table
    ensures table.None? ==> r.value.Valid() && r.value.rows == map[]
    ensures table.None? ==> r.value.nextId == 1 && r.value.clock == now
  {
    if table.Some? then table else Some(EmptyStore(now))
  }

  /** Running the initialisation again changes nothing. */
  lemma CreateTableIdempotent(table: Option<Store>, now: nat, later: nat)
    ensures CreateTable(CreateTable(table, now), later) == CreateTable(table, now)
  {
  }

  /** Time passing between requests. */
  function Tick(s: Store, elapsed: nat): (r: Store)
    ensures r.rows == s.rows && r.nextId == s.nextId && r.clock >= s.clock
    ensures s.Valid() ==> r.Valid()
  {
    s.(clock := s.clock + elapsed)
  }

  /** `s2` is `s` with exactly one more row, `row`, under the fresh key `id`. */
  ghost predicate AddsRow(s: Store, s2: Store, id: int, row: Row) {
    && id !in s.rows
    && (forall k | k in s.rows :: k < id)
    && s2.rows.Keys == s.rows.Keys + {id}
    && s2.rows[id] == row
    && (forall k | k in s.rows :: s2.rows[k] == s.rows[k])
    && s2.clock == s.clock
  }

  /** `s2` is `s` with the row under `id` replaced by `row`, every other row untouched. */
  ghost predicate ReplacesRow(s: Store, s2: Store, id: int, row: Row) {
    && id in s.rows
    && s2.rows.Keys == s.rows.Keys
    && s2.rows[id] == row
    && (forall k | k in s.rows && k != id :: s2.rows[k] == s.rows[k])
    && s2.nextId == s.nextId
    && s2.clock == s.clock
  }

  /** What a successful INSERT yields: the new state and the driver's `this.lastID`. */
  datatype Inserted = Inserted(store: Store, lastId: int)

  /** The value the BOOLEAN column takes: the one supplied, or its `DEFAULT 0`. */
  function CompletedColumn(completed: Option<int>): (c: int)
    ensures completed.None? ==> c == 0
    ensures completed.Some? ==> c == completed.value
  {
    if completed.Some? then completed.value else 0
  }

  /** `INSERT INTO tasks (title, description, completed) VALUES (?, ?, ?)`, `completed` being
      `None` when the statement leaves the column out. The key comes from the AUTOINCREMENT
      counter and both timestamps default to the current time. */
  function Insert(s: Store, title: string, description: string, completed: Option<int>): (r: Result<Inserted>)
    requires s.Valid()
    ensures s.nextId > MaxRowId ==> r == Err(FullMessage)
    ensures s.nextId <= MaxRowId ==>
      && r.Ok?
      && r.value.lastId == s.nextId
      && AddsRow(s, r.value.store, r.value.lastId, Row(title, description, CompletedColumn(completed), s.clock, s.clock))
      && r.value.store.nextId == r.value.lastId + 1
      && r.value.store.Valid()
  {
    if s.nextId > MaxRowId then
      Err(FullMessage)
    else
      var id := s.nextId;
      var row := Row(title, description, CompletedColumn(completed), s.clock, s.clock);
      Ok(Inserted(Store(s.rows[id := row], id + 1, s.clock), id))
  }

  /** `SELECT * FROM tasks WHERE id = ?`. */
  function SelectById(s: Store, id: int): (r: Option<Row>)
    ensures r.Some? <==> id in s.rows
    ensures r.Some? ==> r.value == s.rows[id]
  {
    if id in s.rows then Some(s.rows[id]) else None
  }

  /** `UPDATE tasks SET title = ?, description = ?, completed = ?, updated_at = CURRENT_TIMESTAMP
      WHERE id = ?`: zero rows are affected when the key is unknown. */
  function UpdateById(s: Store, id: int, title: string, description: string, completed: int): (r: Store)
    ensures id !in s.rows ==> r == s
    ensures id in s.rows ==>
      ReplacesRow(s, r, id, Row(title, description, completed, s.rows[id].createdAt, s.clock))
    ensures s.Valid() ==> r.Valid()
  {
    if id in s.rows then
      s.(rows := s.rows[id := Row(title, description, completed, s.rows[id].createdAt, s.clock)])
    else
      s
  }

  /** `DELETE FROM tasks WHERE id = ?`: the counter is not rewound, so ids are never reused. */
  function DeleteById(s: Store, id: int): (r: Store)
    ensures r.rows.Keys == s.rows.Keys - {id}
    ensures forall k | k in r.rows :: r.rows[k] == s.rows[k]
    ensures r.nextId == s.nextId && r.clock == s.clock
    ensures s.Valid() ==> r.Valid()
  {
    s.(rows := s.rows - {id})
  }

  /** Deleting the same key twice is deleting it once. */
  lemma DeleteByIdIdempotent(s: Store, id: int)
    ensures DeleteById(DeleteById(s, id), id) == DeleteById(s, id)
  {
  }
}

=== FILE: update_task.dfy ===
/** `PUT /tasks/:id`: validate the title, overwrite the row, read it back. */
module UpdateTask {
  import opened Options
  import opened Js
  import opened Schema
  import opened Http

  /** The `catch` of `updateTask`: an error whose message is exactly the not-found text becomes
      a 404 carrying that text, any other one a 500. */
  function Failure(message: string): (r: Response)
    ensures r.status == 404 <==> message == NotFound
    ensures r.status == 404 ==> r.body == Message(NotFound)
    ensures r.status != 404 ==> r == Response(500, Message(UpdateFailed + message))
  {
    if message == NotFound then Response(404, Message(message))
    else Response(500, Message(UpdateFailed + message))
  }

  /** `updateTask` for the task keyed `id`. An id that names no row (including one that is not
      a number at all) is an `id` absent from the store. A `WriteFault` is the UPDATE failing;
      a `ReadFault` is the read-back failing after the UPDATE took effect. */
  function Handle(s: Store, id: int, body: TaskBody, fault: Fault): (out: Outcome)
    requires Normalised(s)
    ensures Normalised(out.store)
    ensures out.store.nextId == s.nextId && out.store.clock == s.clock
    ensures out.response.status in {200, 400, 404, 500}
    // validation comes first, whether or not the id exists
    ensures TitleMissing(body.title) ==> out == Outcome(s, Response(400, Message(TitleRequired)))
    ensures !TitleMissing(body.title) && fault.WriteFault? ==> out == Outcome(s, Failure(fault.cause))
    // an unknown id changes nothing and is reported as not found
    ensures !TitleMissing(body.title) && !fault.WriteFault? && id !in s.rows ==> out.store == s
    ensures !TitleMissing(body.title) && fault.NoFault? && id !in s.rows ==>
      out.response == Response(404, Message(NotFound))
    // a known id gets the normalised body and a fresh `updated_at`; no other row moves
    ensures !TitleMissing(body.title) && !fault.WriteFault? && id in s.rows ==>
      ReplacesRow(s, out.store, id, NormalRow(body, s.rows[id].createdAt, s.clock))
    ensures !TitleMissing(body.title) && fault.ReadFault? ==> out.response == Failure(fault.cause)
    // 200 exactly when the row existed and nothing failed, carrying the row as now stored
    ensures out.response.status == 200 <==> !TitleMissing(body.title) && fault.NoFault? && id in s.rows
    ensures out.response.status == 200 ==> out.response == Response(200, One(ToTask(id, out.store.rows[id])))
  {
    if TitleMissing(body.title) then
      Outcome(s, Response(400, Message(TitleRequired)))
    else if fault.WriteFault? then
      Outcome(s, Failure(fault.cause))
    else
      var s2 := UpdateById(s, id, StoredTitle(body.title), StoredDescription(body.description), StoredFlag(body.completed));
      UpdateKeepsNormalised(s, id, body);
      if fault.ReadFault? then
        Outcome(s2, Failure(fault.cause))
      else
        match SelectById(s2, id)
        case None => Outcome(s2, Failure(NotFound))
        case Some(row) => Outcome(s2, Response(200, One(ToTask(id, row))))
  }

  /** The UPDATE of a known id stores the normalised row; either way the invariant holds. */
  lemma UpdateKeepsNormalised(s: Store, id: int, body: TaskBody)
    requires Normalised(s) && !TitleMissing(body.title)
    ensures var s2 := UpdateById(s, id, StoredTitle(body.title), StoredDescription(body.description), StoredFlag(body.completed));
      && Normalised(s2)
      && (id in s.rows ==> s2.rows[id] == NormalRow(body, s.rows[id].createdAt, s.clock))
  {
  }

  /** The task a 200 carries: the request normalised, its own `id` and `created_at`, and
      `updated_at` advanced to the current time, never earlier than before. An omitted
      `completed` comes back false, whatever the row held. */
  lemma UpdatedTask(s: Store, id: int, body: TaskBody, fault: Fault)
    requires Normalised(s)
    requires Handle(s, id, body, fault).response.status == 200
    ensures var t := Handle(s, id, body, fault).response.body.task;
      && t.id == id
      && t.title == Trim(body.title.value)
      && t.description == StoredDescription(body.description)
      && t.completed == Truthy(body.completed)
      && (body.completed.Absent? ==> !t.completed)
      && t.createdAt == s.rows[id].createdAt
      && t.updatedAt == s.clock >= s.rows[id].updatedAt
  {
  }
}
